=== FILE: README.md ===
# Goodbye classifier: a Dafny model

This project models `GoodbyeModel` from vocode's streaming utilities. The class decides whether
an utterance is a "goodbye". It has two parts:

- **The classifier (`is_goodbye`).** If the lowered text contains `"bye"`, the answer is
  true straight away. Otherwise the stripped, lowered text is embedded. The answer is true
  exactly when its best dot product against the reference matrix is strictly above
  `SIMILARITY_THRESHOLD` (0.9).
- **Reference-matrix resolution (`initialize_embeddings` and the functions below it).** The
  reference matrix is `EMBEDDING_SIZE` (1536) rows by one column per goodbye phrase. It comes
  from a Redis entry when a config manager is set and the key is non-empty, and otherwise
  from a `.npy` file. On a miss it is built one phrase at a time, in phrase order, saved
  once, and returned.

The model is functional:

- The embedding service is a parameter `embed: string -> Reply`. A `Failed` reply stands
  for the service raising.
- Both backends are maps held in a `Backend` value.
- Each operation returns its result, wrapped according to what it touches:
  - operations that touch storage (`Cache.FromRedis`, `Cache.FromPath`,
    `Cache.LoadOrCreate`, `Goodbye.Initialize` and the as-written resolution) return a
    `Step`: the result, the trace of outside calls it made (`seq<Call>`, in order), and the
    backend after it;
  - operations that only call the embedding service (`Embeddings.CreateEmbeddings`,
    `Goodbye.IsGoodbye`, `Unawaited.IsGoodbyeAsWritten`) return a `Traced`: the result and
    the trace, with no backend;
  - the constructor `Goodbye.New` makes no outside call and returns a bare `Result`.
- Python exceptions become `Err(...)` values.

Statements such as "no embedding call on this path", "exactly one write" and "only one
backend is touched" are stated over that trace.

Modules:

- `Text`: Python's `str.lower`, `str.strip` and `in`.
- `Effects`: results, errors, the matrix type and the call trace.
- `Embeddings`: the constants, `create_embeddings`, and dot product and max.
- `Cache`: `_from_redis`, `_from_path` and `load_or_create_embeddings`.
- `Goodbye`: the constructor, `initialize_embeddings` and `is_goodbye`.
- `Unawaited`: the resolution exactly as written; see Findings.

## Model

| member | source | states |
|---|---|---|
| Text.Lower | vocode/streaming/utils/goodbye_model.py:83 | The model's lowering of `text.lower()` maps every ASCII capital to its small letter and leaves every other character alone. It keeps the length and leaves no ASCII capital. |
| Text.LowerIdempotent | vocode/streaming/utils/goodbye_model.py:83 | Lowering an already lowered text changes nothing. |
| Text.Strip | vocode/streaming/utils/goodbye_model.py:85 | `text.strip()` is a slice of the text. Everything outside the slice is Python whitespace, and the slice neither starts nor ends with whitespace. |
| Text.StripIdempotent | vocode/streaming/utils/goodbye_model.py:85 | Stripping a stripped text changes nothing. |
| Text.StripUntrimmed | vocode/streaming/utils/goodbye_model.py:85 | A text with no whitespace at either end is its own stripped form. |
| Text.ContainsIffOccurs | vocode/streaming/utils/goodbye_model.py:83 | The recursive substring test `sub in s` holds exactly when `sub` occurs at some index of `s`. |
| Text.OccursThenContains | vocode/streaming/utils/goodbye_model.py:83 | An occurrence of `sub` at any index makes `sub in s` true. |
| Text.ContainsWitness | vocode/streaming/utils/goodbye_model.py:83 | When `sub in s` is true, an index where `sub` occurs. |
| Text.AbsentFirstCharacter | vocode/streaming/utils/goodbye_model.py:83 | A text that lacks the substring's first character does not contain the substring. |
| Embeddings.AsColumn | vocode/streaming/utils/goodbye_model.py:78 | Storing one reply as column i (`embeddings[:, i] = ...`) gives a 1536-entry column. A full-length vector is kept as is and a one-element vector is broadcast. A failed call gives a provider error and any other length gives a shape error. |
| Embeddings.CreateColumns | vocode/streaming/utils/goodbye_model.py:77-78 | The per-phrase loop. Call i embeds phrase i, and there are at most as many calls as phrases. On success there is one call and one column per phrase, every reply fits, and column i is phrase i's column. |
| Embeddings.CreateColumnsSucceedsIff | vocode/streaming/utils/goodbye_model.py:77-78 | The loop succeeds exactly when every phrase's reply fits a column. |
| Embeddings.CreateColumnsStopsAtFirstFailure | vocode/streaming/utils/goodbye_model.py:77-78 | A failed loop stops at the first phrase whose reply does not fit. Every earlier reply fitted, and that phrase's error is the one raised. |
| Embeddings.CreateEmbeddings | vocode/streaming/utils/goodbye_model.py:73-79 | `create_embeddings` gives a matrix with `EMBEDDING_SIZE` rows and one column per phrase. Column i comes from `embed(phrases[i])`. The embedding calls are made one per phrase, in phrase order, and the first failure aborts the build. |
| Embeddings.CreateEmbeddingsWithFullVectors | vocode/streaming/utils/goodbye_model.py:73-79 | When the service always answers with a 1536-entry vector, the build succeeds. Its trace is exactly the phrases' embed calls, and column i equals the reply for phrase i. |
| Embeddings.RowCombinationIsDot | vocode/streaming/utils/goodbye_model.py:86 | Summing the matrix's rows from row k on, each scaled by the matching entry of the embedding, gives for every column the dot product of the two tails from k on. |
| Embeddings.ScoresAreRowCombination | vocode/streaming/utils/goodbye_model.py:86 | `embedding @ matrix` read off column by column (one dot product per column) equals the same product built as the embedding-weighted sum of the matrix's rows. |
| Embeddings.Max | vocode/streaming/utils/goodbye_model.py:87 | `np.max` of a non-empty score list is one of the scores and is at least every score. |
| Embeddings.MaxAbove | vocode/streaming/utils/goodbye_model.py:87 | The maximum score is above a bound exactly when some score is. |
| Cache.SavedPath | vocode/streaming/utils/goodbye_model.py:70 | The file `np.save` writes always ends in `.npy`. It is the path itself when the path already ends so, and otherwise the path plus the four characters `.npy`. |
| Cache.FromRedis | vocode/streaming/utils/goodbye_model.py:55-63 | Without a config manager: `None`, with no call. With one: a present entry is returned unchanged, with only the get call and nothing written. On a miss the calls are get, then the build's calls, then one put of the built matrix, which is returned. After a successful miss the key holds that matrix. A failed build writes nothing. Other keys and the files are never changed. |
| Cache.FromPath | vocode/streaming/utils/goodbye_model.py:65-71 | An existing file is returned unchanged, with only the existence check and the load, and nothing written. On a miss the calls are check, then the build's calls, then one save. After a successful miss the saved file holds the returned matrix. A failed build writes nothing. The store and other files are never changed. |
| Cache.LoadOrCreate | vocode/streaming/utils/goodbye_model.py:50-53 | With a config manager and a non-empty key, the first call is the Redis get and no file call happens; otherwise the first call is the file check and no store call happens. Only the backend in use can change, and a success always carries a matrix. |
| Cache.ResolveAgain | vocode/streaming/utils/goodbye_model.py:50-71 | A second resolve from the backend the first one left returns the same matrix with reads only: no embedding call, no write, backend unchanged. This holds for any phrase list and provider in the second call, because a cached entry is never checked against the current phrases. On the file backend the path must end in `.npy`. |
| Cache.PathWithoutSuffixRebuilds | vocode/streaming/utils/goodbye_model.py:65-71 | With a path lacking `.npy`, the first resolve saves to `path.npy`. The path itself is still absent afterwards, so the second resolve re-embeds every phrase and saves again, repeating the same calls. |
| Goodbye.New | vocode/streaming/utils/goodbye_model.py:28-43 | Construction succeeds exactly when a non-empty key is passed or found in the environment, with the passed key taking precedence. Otherwise it fails with a configuration error. A new instance holds no embeddings and keeps the given path, phrases and backend choice. By default no key is passed, no config manager is set and the phrases are `GOODBYE_PHRASES`. |
| Goodbye.FreshInitializeHasPhraseColumns | vocode/streaming/utils/goodbye_model.py:45-87 | A successful initialisation that had to build the matrix leaves one column per phrase. With at least one phrase, `is_goodbye` then never fails for lack of scores. |
| Goodbye.DefaultModelNeverLacksScores | vocode/streaming/utils/goodbye_model.py:15-43 | An instance built with the defaults and an environment key uses that key, the file cache and the eight default phrases. After a fresh build its matrix has eight columns, so `np.max` never meets an empty score list. |
| Goodbye.CacheFile | vocode/streaming/utils/goodbye_model.py:47 | The resolved file is the cache directory followed by `/goodbye_embeddings.npy`. It starts with the directory and ends in `.npy`. |
| Goodbye.Initialize | vocode/streaming/utils/goodbye_model.py:45-48 | `initialize_embeddings` resolves for `CacheFile` and the key `"default"`, stores the result and changes nothing else. It always makes at least one call: the Redis get when a config manager is set, otherwise the file check. On success the instance holds a matrix. |
| Goodbye.Similar | vocode/streaming/utils/goodbye_model.py:86-87 | A failed embedding call raises. So does a reply whose length differs from the matrix's row count, and a matrix with no columns (`np.max` over nothing). Otherwise the answer is true exactly when some column's dot product is strictly above 0.9. |
| Goodbye.IsGoodbye | vocode/streaming/utils/goodbye_model.py:81-87 | Before initialisation it raises and makes no call. If the lowered text contains "bye", the answer is true and no call is made. Otherwise exactly one embed call is made on `lower(strip(text))`, and the answer is `Similar` of that reply. A false answer means no column scores above the threshold. |
| Goodbye.ThresholdIsStrict | vocode/streaming/utils/goodbye_model.py:13 | A best score of exactly 0.9 classifies as not a goodbye, and a best score above 0.9 classifies as a goodbye. |
| Goodbye.MatchingPhraseIsGoodbye | vocode/streaming/utils/goodbye_model.py:85-87 | A text whose embedding equals a unit-length reference column is a goodbye. |
| Goodbye.InitializedIsReady | vocode/streaming/utils/goodbye_model.py:82 | After a successful `initialize_embeddings`, the not-initialised assertion of `is_goodbye` cannot fire. |
| Goodbye.FreshMatrixClassifies | vocode/streaming/utils/goodbye_model.py:45-87 | Take a cache miss, a non-empty phrase list and a service that always answers with full-length vectors. Then initialisation succeeds and every text classifies without error. |
| Goodbye.EmptyPhrasesFailOnSlowPath | vocode/streaming/utils/goodbye_model.py:76-87 | With no phrases, the build succeeds but leaves zero columns. Every text that does not say "bye" and whose reply has 1536 entries then fails in `np.max`. A failing call or a reply of another length raises earlier, as in `Goodbye.Similar`. |
| Goodbye.InitializeTwice | vocode/streaming/utils/goodbye_model.py:45-71 | A second `initialize_embeddings` is not skipped: it reads the backend again. It yields the same matrix and backend, with no embedding call and no write. |
| Goodbye.PlainTextQuery | vocode/streaming/utils/goodbye_model.py:83-85 | A text with no capitals and no surrounding whitespace is lowered to itself and embedded as is. |
| Goodbye.SlowPathAnswer | vocode/streaming/utils/goodbye_model.py:83-87 | A lower-case, already stripped text without "bye" gets the verdict of the service's reply for that very text. |
| Goodbye.ScenarioVerdicts | vocode/streaming/utils/goodbye_model.py:86-87 | Against the two-phrase matrix, the reply (0.05, 0.95) scores 0.95 and passes. The reply (0.2, 0.2) scores 0.2 against both columns and does not. |
| Goodbye.ScenarioTalkToYouLater | vocode/streaming/utils/goodbye_model.py:81-87 | With phrases "bye" and "see you", "talk to you later" does not say "bye" but scores 0.95 against "see you", so it is a goodbye. |
| Goodbye.ScenarioWhatTimeIsIt | vocode/streaming/utils/goodbye_model.py:81-87 | In the same example, "what time is it" scores 0.2 at best and is not a goodbye. |
| Unawaited.LoadOrCreateAsWritten | vocode/streaming/utils/goodbye_model.py:50-53 | As written, the result is a coroutine of the same backend the awaited `Cache.LoadOrCreate` would use: the store exactly when the awaited call starts with the Redis get, otherwise the file whose check it starts with. The awaited call makes at least one call, while this one makes none and leaves the backend unchanged. |
| Unawaited.InitializeAsWritten | vocode/streaming/utils/goodbye_model.py:45-53 | As written, `initialize_embeddings` stores an un-awaited coroutine. It makes no call and changes no backend, while the awaited `Goodbye.Initialize` always makes at least one call. |
| Unawaited.IsGoodbyeAsWritten | vocode/streaming/utils/goodbye_model.py:81-87 | `is_goodbye` over what `goodbye_embeddings` holds. The assertion and the "bye" fast path behave as usual. A real matrix behaves like `Similar`. A coroutine never gives false on the slow path: the call either fails or the multiplication raises. |
| Unawaited.UnawaitedInitializeBreaksClassification | vocode/streaming/utils/goodbye_model.py:45-87 | As written, initialising makes no call. Afterwards every text without "bye" fails with an operand error, even when the service answers. The awaited `Goodbye.Initialize`, on the same miss, gives a matrix with which the same text classifies. |

## Findings

| source | as written | input that shows it | evidently intended | confidence | as-written member | corrected member |
|---|---|---|---|---|---|---|
| vocode/streaming/utils/goodbye_model.py:52-53 | `return self._from_redis(key)` and `return self._from_path(path)` are not awaited. So `initialize_embeddings` stores a coroutine object, no backend is read or written, and nothing is built. | Any instance, `await initialize_embeddings()`, then `is_goodbye("hello")` with a working service: `embedding @ coroutine` raises | `return await self._from_redis(key)` / `return await self._from_path(path)`, storing the resolved matrix | not executed | Unawaited.UnawaitedInitializeBreaksClassification | Goodbye.Initialize |

The missing `await` on line 53, the file branch, has the same effect as the one on line 52.
So neither backend works as written. The rest of the model, from `Cache.LoadOrCreate` on,
awaits both branches.

## Left out

- The OpenAI request in `create_embedding` (lines 89-102) is network I/O. The
  environment lookup there (`getenv`, line 94), which picks an engine or a model, is
  not. Both are replaced by the `embed` parameter. That parameter is a deterministic function, and its `Failed` reply stands for
  any exception the call raises.
- The Redis config manager is not part of this model. Its get and put are a map lookup and
  a map update, so what is put is what is later got.
  - `_from_redis` tests the stored value with Python truthiness (`if goodbye_embeddings:`).
    The model treats this as presence, because the manager's return type is not available.
- `np.save` and `np.load` are reduced to a map from file name to matrix, so a save followed
  by a load gives back the same matrix. Only one file-format detail is kept: `np.save`
  appends `.npy` when the name lacks it. Also left out:
  - a directory at the path;
  - unreadable files;
  - a save that fails (a missing or unwritable directory), which after the whole build
    would make `initialize_embeddings` raise; in the model every save succeeds;
  - a stored array that is not two-dimensional.
- Floating point is left out. Scores, the dot product and `np.max` use exact `real`
  arithmetic. The provider's unit normalisation is an assumption, used only in
  `Goodbye.MatchingPhraseIsGoodbye`.
- `async` scheduling is left out, and so are races between concurrent initialisations or
  processes. Every operation is sequential.
- `Text.Lower`: only ASCII letters are lowered, whereas Python lowers all of Unicode.
  - Python's lowering can also change the length (`'İ'.lower()` has two characters). The
    model's always keeps it.
  - This does not change the `"bye"` test, because only `B`, `Y` and `E` lower to `b`, `y`
    and `e`.
  - It can change the text sent to the embedding service when that text has non-ASCII
    capitals.
- `Embeddings.AsColumn`: numpy's conversion of reply elements to float is not modelled.
- The constructor assigns `openai.api_key`, a process-wide setting, before it checks the
  key. The model keeps the key in the instance instead.
  - The default cache directory (a `goodbye_embeddings` subdirectory of the module's own
    directory) is a parameter without a default. So the default file,
    `<module directory>/goodbye_embeddings/goodbye_embeddings.npy`, is not modelled. The other defaults are kept: no key passed, no config manager, and
    `GOODBYE_PHRASES`.
  - `getenv("OPENAI_API_KEY")` is read outside the model and passed in as `envKey`.
- The `print("Creating embeddings...")` diagnostic is not modelled. The same goes for the
  `__main__` loop over standard input and `dotenv` loading (lines 74, 105-115).

=== FILE: cache.dfy ===
/** Resolution of the reference matrix: `load_or_create_embeddings` and its
    two backends, `_from_redis` (a keyed store) and `_from_path` (a `.npy`
    file). Both backends are maps from key or path to a stored matrix. */
module Cache {
  import opened Effects
  import opened Text
  import opened Embeddings

  /** What the two storage backends hold. */
  datatype Backend = Backend(store: map<string, Matrix>, files: map<string, Matrix>)

  /** An operation's outcome, the calls it made, and the backend after it. */
  datatype Step<+T> = Step(result: Result<T>, calls: seq<Call>, backend: Backend)

  /** The file `np.save(path, ...)` writes: it adds `.npy` unless `path`
      already ends with it. */
  function SavedPath(path: string): (p: string)
    ensures EndsWith(p, ".npy")
    ensures EndsWith(path, ".npy") ==> p == path
    ensures !EndsWith(path, ".npy") ==> |p| == |path| + 4 && p[..|path|] == path
  {
    EndsWithAppended(path, ".npy");
    if EndsWith(path, ".npy") then path else path + ".npy"
  }

  /** `load_or_create_embeddings` goes to Redis exactly when a config
      manager is set and the key is non-empty. */
  predicate UsesStore(hasStore: bool, key: string) {
    hasStore && key != ""
  }

  /** `_from_redis`: without a config manager, nothing (`None`); a stored
      entry is returned as it is, whatever the current phrases; on a miss
      the freshly built matrix is saved under `key` and returned. */
  function FromRedis(hasStore: bool, key: string, phrases: seq<string>, embed: Provider, b: Backend)
    : (r: Step<Option<Matrix>>)
    ensures !hasStore ==> r.result == Ok(None) && r.calls == [] && r.backend == b
    ensures hasStore ==> |r.calls| > 0 && r.calls[0] == StoreGet(key)
    ensures forall i :: 0 <= i < |r.calls| ==> !r.calls[i].OnFiles()
    ensures r.backend.files == b.files
    ensures r.result.Ok? && hasStore ==> r.result.value.Some? && key in r.backend.store
    ensures r.result.Ok? && hasStore ==> r.backend.store[key] == r.result.value.value
    ensures r.result.Ok? ==> forall k :: k in b.store && k != key ==> k in r.backend.store && r.backend.store[k] == b.store[k]
    ensures r.result.Ok? ==> r.backend.store.Keys <= b.store.Keys + {key}
    ensures r.result.Err? ==> r.backend == b
    // a hit: the stored value, no embedding call, no write
    ensures hasStore && key in b.store ==>
              r.result == Ok(Some(b.store[key])) && r.calls == [StoreGet(key)] && r.backend == b
    // a miss: get, the build's calls, then one put of the built matrix
    ensures hasStore && key !in b.store ==>
              var built := CreateEmbeddings(phrases, embed);
              && r.result.Ok? == built.result.Ok?
              && (built.result.Ok? ==>
                    && r.result.value == Some(built.result.value)
                    && r.calls == [StoreGet(key)] + built.calls + [StorePut(key, built.result.value)])
              && (built.result.Err? ==>
                    && r.result.error == built.result.error
                    && r.calls == [StoreGet(key)] + built.calls)
  {
    if !hasStore then Step(Ok(None), [], b)
    else if key in b.store then Step(Ok(Some(b.store[key])), [StoreGet(key)], b)
    else
      var built := CreateEmbeddings(phrases, embed);
      var calls := [StoreGet(key)] + built.calls;
      match built.result
      case Err(e) => Step(Err(e), calls, b)
      case Ok(m) => Step(Ok(Some(m)), calls + [StorePut(key, m)], b.(store := b.store[key := m]))
  }

  /** `_from_path`: an existing file is loaded and returned unchanged; a
      missing one is built, saved (under `SavedPath(path)`) and returned. */
  function FromPath(path: string, phrases: seq<string>, embed: Provider, b: Backend)
    : (r: Step<Option<Matrix>>)
    ensures |r.calls| > 0 && r.calls[0] == FileCheck(path)
    ensures forall i :: 0 <= i < |r.calls| ==> !r.calls[i].OnStore()
    ensures r.backend.store == b.store
    ensures r.result.Ok? ==> r.result.value.Some?
    ensures r.result.Ok? ==> SavedPath(path) in r.backend.files || path in b.files
    ensures r.result.Ok? ==> forall p :: p in b.files && p != SavedPath(path) ==> p in r.backend.files && r.backend.files[p] == b.files[p]
    ensures r.result.Ok? ==> r.backend.files.Keys <= b.files.Keys + {SavedPath(path)}
    ensures r.result.Err? ==> r.backend == b
    // the file exists: its contents, no embedding call, no write
    ensures path in b.files ==>
              && r.result == Ok(Some(b.files[path]))
              && r.calls == [FileCheck(path), FileLoad(path)]
              && r.backend == b
    // no file: check, the build's calls, then one save of the built matrix
    ensures path !in b.files ==>
              var built := CreateEmbeddings(phrases, embed);
              && r.result.Ok? == built.result.Ok?
              && (built.result.Ok? ==>
                    && r.result.value == Some(built.result.value)
                    && r.backend.files[SavedPath(path)] == built.result.value
                    && r.calls == [FileCheck(path)] + built.calls + [FileSave(SavedPath(path), built.result.value)])
              && (built.result.Err? ==>
                    && r.result.error == built.result.error
                    && r.calls == [FileCheck(path)] + built.calls)
  {
    if path in b.files then Step(Ok(Some(b.files[path])), [FileCheck(path), FileLoad(path)], b)
    else
      var built := CreateEmbeddings(phrases, embed);
      var calls := [FileCheck(path)] + built.calls;
      match built.result
      case Err(e) => Step(Err(e), calls, b)
      case Ok(m) =>
        var saved := SavedPath(path);
        Step(Ok(Some(m)), calls + [FileSave(saved, m)], b.(files := b.files[saved := m]))
  }

  /** `load_or_create_embeddings` with the backend call awaited, as
      evidently intended (the source returns it un-awaited; module
      `Unawaited` models that): exactly one backend is read, and only that
      one may be written. */
  function LoadOrCreate(hasStore: bool, phrases: seq<string>, path: string, key: string, embed: Provider, b: Backend)
    : (r: Step<Option<Matrix>>)
    ensures |r.calls| > 0
    ensures UsesStore(hasStore, key) ==>
              && r.calls[0] == StoreGet(key)
              && (forall i :: 0 <= i < |r.calls| ==> !r.calls[i].OnFiles())
              && r.backend.files == b.files
    ensures !UsesStore(hasStore, key) ==>
              && r.calls[0] == FileCheck(path)
              && (forall i :: 0 <= i < |r.calls| ==> !r.calls[i].OnStore())
              && r.backend.store == b.store
    ensures r.result.Ok? ==> r.result.value.Some?
    ensures r.result.Err? ==> r.backend == b
  {
    if UsesStore(hasStore, key) then FromRedis(hasStore, key, phrases, embed, b)
    else FromPath(path, phrases, embed, b)
  }

  /** Whichever backend is used, resolving a second time from the backend the
      first resolution left behind gives back the same matrix with reads
      only: no embedding call, no write, backend unchanged. The second call
      may even name other phrases or another provider: the cached entry is
      never checked against them. On the file backend this needs a path that
      already ends in `.npy`, since that is the name `np.save` writes. */
  lemma ResolveAgain(
    hasStore: bool, phrases: seq<string>, path: string, key: string, embed: Provider, b: Backend,
    phrases': seq<string>, embed': Provider)
    requires LoadOrCreate(hasStore, phrases, path, key, embed, b).result.Ok?
    requires !UsesStore(hasStore, key) ==> EndsWith(path, ".npy")
    ensures var first := LoadOrCreate(hasStore, phrases, path, key, embed, b);
            var second := LoadOrCreate(hasStore, phrases', path, key, embed', first.backend);
            && second.result == first.result
            && second.backend == first.backend
            && ReadOnly(second.calls)
  {
    var first := LoadOrCreate(hasStore, phrases, path, key, embed, b);
    if UsesStore(hasStore, key) {
      assert key in first.backend.store;
    } else {
      assert SavedPath(path) == path;
      assert path in first.backend.files;
    }
  }

  /** A file path without the `.npy` suffix is never found again: `np.save`
      wrote to `path + ".npy"`, so every later resolve rebuilds the matrix
      from scratch, embedding every phrase and saving once more. */
  lemma PathWithoutSuffixRebuilds(
    phrases: seq<string>, path: string, embed: Provider, b: Backend)
    requires !EndsWith(path, ".npy") && path !in b.files
    requires FromPath(path, phrases, embed, b).result.Ok?
    ensures var first := FromPath(path, phrases, embed, b);
            var second := FromPath(path, phrases, embed, first.backend);
            && path !in first.backend.files
            && second.result == first.result
            && second.calls == first.calls
            && |second.calls| == |phrases| + 2
  {
    var first := FromPath(path, phrases, embed, b);
    assert SavedPath(path) != path;
    assert path !in first.backend.files;
  }
}

=== FILE: effects.dfy ===
/** Values shared by every part of the model: optional and failing results,
    the reference matrix, and the trace of outside calls an operation makes. */
module Effects {

  datatype Option<+T> = None | Some(value: T)

  /** The exceptions the classifier can raise. */
  datatype Error =
    | ConfigError     // no OpenAI API key at construction (ValueError)
    | NotInitialised  // `is_goodbye` before `initialize_embeddings` (AssertionError)
    | ProviderError   // the embedding call raised
    | ShapeError      // numpy could not fit a vector into the expected shape
    | EmptyScores     // `np.max` over zero similarity scores
    | OperandError    // `@` applied to something that is not an array

  datatype Result<+T> = Ok(value: T) | Err(error: Error)

  /** A numeric table stored column by column. */
  datatype Grid = Grid(rows: nat, columns: seq<seq<real>>)

  /** A reference matrix: every column has `rows` entries. */
  type Matrix = g: Grid | forall j :: 0 <= j < |g.columns| ==> |g.columns[j]| == g.rows
    witness Grid(0, [])

  /** One call from the classifier to the outside: the embedding service,
      the Redis store or the file system. */
  datatype Call =
    | Embed(text: string)
    | StoreGet(key: string)
    | StorePut(key: string, matrix: Matrix)
    | FileCheck(path: string)
    | FileLoad(path: string)
    | FileSave(path: string, matrix: Matrix)
  {
    predicate IsWrite() {
      StorePut? || FileSave?
    }

    predicate OnStore() {
      StoreGet? || StorePut?
    }

    predicate OnFiles() {
      FileCheck? || FileLoad? || FileSave?
    }
  }

  /** The calls in `calls` neither embed anything nor write anything. */
  predicate ReadOnly(calls: seq<Call>) {
    forall i :: 0 <= i < |calls| ==> !calls[i].Embed? && !calls[i].IsWrite()
  }

  /** The outcome of an operation together with the calls it made, in order. */
  datatype Traced<+T> = Traced(result: Result<T>, calls: seq<Call>)
}

=== FILE: embeddings.dfy ===
/** The module-level constants, the embedding service seen as an opaque
    function, `create_embeddings`, and the similarity arithmetic of
    `is_goodbye`. */
module Embeddings {
  import opened Effects

  const SIMILARITY_THRESHOLD: real := 0.9
  const EMBEDDING_SIZE: nat := 1536
  const GOODBYE_PHRASES: seq<string> := [
    "bye",
    "goodbye",
    "see you",
    "see you later",
    "talk to you later",
    "talk to you soon",
    "have a good day",
    "have a good night"
  ]

  /** What one call to the embedding service gives back. */
  datatype Reply = Embedded(vector: seq<real>) | Failed

  /** The embedding service: deterministic, possibly failing. */
  type Provider = string -> Reply

  /** The column numpy stores for `embeddings[:, i] = reply`: a vector of
      the right length as is, a one-element vector broadcast down the
      column, anything else refused. */
  function AsColumn(reply: Reply): (c: Result<seq<real>>)
    ensures c.Ok? ==> |c.value| == EMBEDDING_SIZE
    ensures c.Ok? <==> reply.Embedded? && (|reply.vector| == EMBEDDING_SIZE || |reply.vector| == 1)
    ensures reply.Failed? ==> c == Err(ProviderError)
    ensures reply.Embedded? && !c.Ok? ==> c == Err(ShapeError)
    ensures reply.Embedded? && |reply.vector| == EMBEDDING_SIZE ==> c == Ok(reply.vector)
    ensures reply.Embedded? && |reply.vector| == 1 ==>
              c.Ok? && forall i :: 0 <= i < |c.value| ==> c.value[i] == reply.vector[0]
  {
    match reply
    case Failed => Err(ProviderError)
    case Embedded(v) =>
      if |v| == EMBEDDING_SIZE then Ok(v)
      else if |v| == 1 then Ok(seq(EMBEDDING_SIZE, _ => v[0]))
      else Err(ShapeError)
  }

  /** The reply for `phrase` can be stored as a column. */
  predicate Fits(embed: Provider, phrase: string) {
    AsColumn(embed(phrase)).Ok?
  }

  /** The phrases embed one after another, in order, and each reply becomes
      the next column. */
  function CreateColumns(phrases: seq<string>, embed: Provider): (r: Traced<seq<seq<real>>>)
    ensures |r.calls| <= |phrases|
    ensures forall i :: 0 <= i < |r.calls| ==> r.calls[i] == Embed(phrases[i])
    ensures r.result.Ok? ==>
              && |r.calls| == |phrases|
              && |r.result.value| == |phrases|
              && forall i :: 0 <= i < |phrases| ==>
                   Fits(embed, phrases[i]) && r.result.value[i] == AsColumn(embed(phrases[i])).value
    decreases |phrases|
  {
    if phrases == [] then Traced(Ok([]), [])
    else
      match AsColumn(embed(phrases[0]))
      case Err(e) => Traced(Err(e), [Embed(phrases[0])])
      case Ok(column) =>
        var rest := CreateColumns(phrases[1..], embed);
        var calls := [Embed(phrases[0])] + rest.calls;
        match rest.result
        case Err(e) => Traced(Err(e), calls)
        case Ok(columns) => Traced(Ok([column] + columns), calls)
  }

  /** The build succeeds exactly when every phrase's reply fits a column. */
  lemma {:induction false} CreateColumnsSucceedsIff(phrases: seq<string>, embed: Provider)
    ensures CreateColumns(phrases, embed).result.Ok? <==> forall i :: 0 <= i < |phrases| ==> Fits(embed, phrases[i])
    decreases |phrases|
  {
    if phrases != [] && Fits(embed, phrases[0]) {
      CreateColumnsSucceedsIff(phrases[1..], embed);
      assert forall i :: 0 < i < |phrases| ==> phrases[i] == phrases[1..][i - 1];
    }
  }

  /** A failed build stops right after the first phrase whose reply does
      not fit, and reports that phrase's error. */
  lemma {:induction false} CreateColumnsStopsAtFirstFailure(phrases: seq<string>, embed: Provider)
    requires CreateColumns(phrases, embed).result.Err?
    ensures var r := CreateColumns(phrases, embed);
            && 0 < |r.calls|
            && (forall i :: 0 <= i < |r.calls| - 1 ==> Fits(embed, phrases[i]))
            && AsColumn(embed(phrases[|r.calls| - 1])) == Err(r.result.error)
    decreases |phrases|
  {
    var r := CreateColumns(phrases, embed);
    if Fits(embed, phrases[0]) {
      var rest := CreateColumns(phrases[1..], embed);
      assert rest.result.Err?;
      assert r.calls == [Embed(phrases[0])] + rest.calls && r.result == rest.result;
      CreateColumnsStopsAtFirstFailure(phrases[1..], embed);
      var k := |rest.calls|;
      assert phrases[k] == phrases[1..][k - 1];
      forall i | 0 <= i < k
        ensures Fits(embed, phrases[i])
      {
        if i > 0 {
          assert phrases[i] == phrases[1..][i - 1];
        }
      }
    }
  }

  /** `create_embeddings`: an `EMBEDDING_SIZE` x `|phrases|` matrix whose
      column i is the embedding of phrase i, built by one embedding call per
      phrase in phrase order; a failing call aborts the whole build. */
  function CreateEmbeddings(phrases: seq<string>, embed: Provider): (r: Traced<Matrix>)
    ensures |r.calls| <= |phrases|
    ensures forall i :: 0 <= i < |r.calls| ==> r.calls[i] == Embed(phrases[i])
    ensures r.result.Ok? <==> forall i :: 0 <= i < |phrases| ==> Fits(embed, phrases[i])
    ensures r.result.Ok? ==>
              && |r.calls| == |phrases|
              && r.result.value.rows == EMBEDDING_SIZE
              && |r.result.value.columns| == |phrases|
              && forall i :: 0 <= i < |phrases| ==>
                   r.result.value.columns[i] == AsColumn(embed(phrases[i])).value
    ensures r.result.Err? ==>
              && 0 < |r.calls|
              && (forall i :: 0 <= i < |r.calls| - 1 ==> Fits(embed, phrases[i]))
              && AsColumn(embed(phrases[|r.calls| - 1])) == Err(r.result.error)
  {
    var built := CreateColumns(phrases, embed);
    CreateColumnsSucceedsIff(phrases, embed);
    match built.result
    case Err(e) =>
      CreateColumnsStopsAtFirstFailure(phrases, embed);
      Traced(Err(e), built.calls)
    case Ok(columns) => Traced(Ok(Grid(EMBEDDING_SIZE, columns)), built.calls)
  }

  /** A provider that always answers with a full-length vector makes the
      build succeed with column i exactly the reply for phrase i. */
  lemma CreateEmbeddingsWithFullVectors(phrases: seq<string>, embed: Provider)
    requires forall s :: embed(s).Embedded? && |embed(s).vector| == EMBEDDING_SIZE
    ensures CreateEmbeddings(phrases, embed).result.Ok?
    ensures CreateEmbeddings(phrases, embed).calls == seq(|phrases|, i requires 0 <= i < |phrases| => Embed(phrases[i]))
    ensures forall i :: 0 <= i < |phrases| ==>
              CreateEmbeddings(phrases, embed).result.value.columns[i] == embed(phrases[i]).vector
  {
  }

  /** The similarity score: the dot product of two equally long vectors. */
  function Dot(a: seq<real>, b: seq<real>): real
    requires |a| == |b|
    decreases |a|
  {
    if |a| == 0 then 0.0 else a[0] * b[0] + Dot(a[1..], b[1..])
  }

  /** `embedding @ matrix`: one score per column, in column order. */
  function Scores(v: seq<real>, m: Matrix): (s: seq<real>)
    requires |v| == m.rows
    ensures |s| == |m.columns|
    ensures forall j :: 0 <= j < |s| ==> s[j] == Dot(v, m.columns[j])
  {
    seq(|m.columns|, j requires 0 <= j < |m.columns| => Dot(v, m.columns[j]))
  }

  /** `embedding @ matrix` worked out row by row rather than column by
      column: the sum, over rows k onwards, of row k scaled by `v[k]`. */
  function RowCombination(v: seq<real>, m: Matrix, k: nat): (s: seq<real>)
    requires |v| == m.rows && k <= m.rows
    ensures |s| == |m.columns|
    decreases m.rows - k
  {
    if k == m.rows then seq(|m.columns|, _ => 0.0)
    else
      var rest := RowCombination(v, m, k + 1);
      seq(|m.columns|, j requires 0 <= j < |m.columns| => v[k] * m.columns[j][k] + rest[j])
  }

  /** From row k on, the row combination agrees with the dot products of the
      columns' tails. */
  lemma {:induction false} RowCombinationIsDot(v: seq<real>, m: Matrix, k: nat)
    requires |v| == m.rows && k <= m.rows
    ensures forall j :: 0 <= j < |m.columns| ==> RowCombination(v, m, k)[j] == Dot(v[k..], m.columns[j][k..])
    decreases m.rows - k
  {
    if k < m.rows {
      RowCombinationIsDot(v, m, k + 1);
      forall j | 0 <= j < |m.columns|
        ensures RowCombination(v, m, k)[j] == Dot(v[k..], m.columns[j][k..])
      {
        assert v[k..][1..] == v[k + 1..];
        assert m.columns[j][k..][1..] == m.columns[j][k + 1..];
      }
    }
  }

  /** The scores of `embedding @ matrix` are the same whether read off the
      columns (one dot product each) or summed up from the rows. */
  lemma ScoresAreRowCombination(v: seq<real>, m: Matrix)
    requires |v| == m.rows
    ensures Scores(v, m) == RowCombination(v, m, 0)
  {
    RowCombinationIsDot(v, m, 0);
    forall j | 0 <= j < |m.columns|
      ensures Scores(v, m)[j] == RowCombination(v, m, 0)[j]
    {
      assert v[0..] == v && m.columns[j][0..] == m.columns[j];
    }
  }

  /** `np.max` of a non-empty sequence. */
  function Max(s: seq<real>): (m: real)
    requires |s| > 0
    ensures m in s
    ensures forall i :: 0 <= i < |s| ==> s[i] <= m
    decreases |s|
  {
    if |s| == 1 then s[0]
    else
      var rest := Max(s[1..]);
      if s[0] >= rest then s[0] else rest
  }

  /** The maximum exceeds a bound exactly when some element does. */
  lemma MaxAbove(s: seq<real>, t: real)
    requires |s| > 0
    ensures Max(s) > t <==> exists i :: 0 <= i < |s| && s[i] > t
  {
  }
}

=== FILE: goodbye.dfy ===
/** `GoodbyeModel`: construction, `initialize_embeddings` and `is_goodbye`. */
module Goodbye {
  import opened Effects
  import opened Text
  import opened Embeddings
  import opened Cache

  /** One classifier instance. `hasStore` says whether a Redis config
      manager was supplied; `embeddings` is `None` until initialised. */
  datatype GoodbyeModel = GoodbyeModel(
    cachePath: string,
    apiKey: string,
    hasStore: bool,
    phrases: seq<string>,
    embeddings: Option<Matrix>)

  const DEFAULT_KEY: string := "default"

  /** Python truthiness of an optional string. */
  predicate Supplied(s: Option<string>) {
    s.Some? && s.value != ""
  }

  /** The constructor: the API key passed in, else the one in the
      environment (`envKey`); with neither, a `ValueError`. By default no key
      is passed, no config manager is set and the phrases are
      `GOODBYE_PHRASES`. */
  function New(
    cachePath: string, envKey: Option<string>,
    apiKey: Option<string> := None, hasStore: bool := false, phrases: seq<string> := GOODBYE_PHRASES)
    : (r: Result<GoodbyeModel>)
    ensures r.Ok? <==> Supplied(apiKey) || Supplied(envKey)
    ensures r.Err? ==> r.error == ConfigError
    ensures r.Ok? ==>
              && r.value.embeddings == None
              && r.value.cachePath == cachePath
              && r.value.hasStore == hasStore
              && r.value.phrases == phrases
              && r.value.apiKey != ""
              && (Supplied(apiKey) ==> r.value.apiKey == apiKey.value)
              && (!Supplied(apiKey) ==> r.value.apiKey == envKey.value)
  {
    var key := if Supplied(apiKey) then apiKey else envKey;
    if !Supplied(key) then Err(ConfigError)
    else Ok(GoodbyeModel(cachePath, key.value, hasStore, phrases, None))
  }

  /** The file `initialize_embeddings` resolves against. */
  function CacheFile(model: GoodbyeModel): (path: string)
    ensures EndsWith(path, ".npy")
    ensures |path| > |model.cachePath| && path[..|model.cachePath|] == model.cachePath
  {
    EndsWithAppended(model.cachePath + "/goodbye_embeddings", ".npy");
    assert model.cachePath + "/goodbye_embeddings.npy" == (model.cachePath + "/goodbye_embeddings") + ".npy";
    model.cachePath + "/goodbye_embeddings.npy"
  }

  /** `initialize_embeddings`: resolve the reference matrix through the
      cache, for `CacheFile(model)` and the key `"default"`, and store it.
      It runs the resolution on every call, initialised or not. */
  function Initialize(model: GoodbyeModel, embed: Provider, b: Backend): (r: Step<GoodbyeModel>)
    ensures var resolved := LoadOrCreate(model.hasStore, model.phrases, CacheFile(model), DEFAULT_KEY, embed, b);
            && r.calls == resolved.calls
            && r.backend == resolved.backend
            && r.result.Ok? == resolved.result.Ok?
            && (r.result.Err? ==> r.result.error == resolved.result.error)
            && (r.result.Ok? ==> r.result.value.embeddings == resolved.result.value)
    ensures |r.calls| > 0
    ensures model.hasStore ==> r.calls[0] == StoreGet(DEFAULT_KEY)
    ensures !model.hasStore ==> r.calls[0] == FileCheck(CacheFile(model))
    ensures r.result.Ok? ==> r.result.value == model.(embeddings := r.result.value.embeddings)
    ensures r.result.Ok? ==> r.result.value.embeddings.Some?
  {
    var resolved := LoadOrCreate(model.hasStore, model.phrases, CacheFile(model), DEFAULT_KEY, embed, b);
    match resolved.result
    case Err(e) => Step(Err(e), resolved.calls, resolved.backend)
    case Ok(m) => Step(Ok(model.(embeddings := m)), resolved.calls, resolved.backend)
  }

  /** A successful initialisation that had to build the matrix leaves one
      column per phrase, so with at least one phrase the slow path never
      meets an empty score list. */
  lemma FreshInitializeHasPhraseColumns(model: GoodbyeModel, embed: Provider, b: Backend, text: string, embed': Provider)
    requires model.hasStore ==> DEFAULT_KEY !in b.store
    requires !model.hasStore ==> CacheFile(model) !in b.files
    requires Initialize(model, embed, b).result.Ok?
    ensures |Initialize(model, embed, b).result.value.embeddings.value.columns| == |model.phrases|
    ensures |model.phrases| > 0 ==>
              IsGoodbye(Initialize(model, embed, b).result.value, text, embed').result != Err(EmptyScores)
  {
    var built := CreateEmbeddings(model.phrases, embed);
    assert built.result.Ok?;
    assert Initialize(model, embed, b).result.value.embeddings == Some(built.result.value);
  }

  /** An instance built with the defaults uses the file cache and the eight
      default phrases, so once a fresh build has succeeded the reference
      matrix has eight columns and `np.max` always has scores to work on. */
  lemma DefaultModelNeverLacksScores(
    cachePath: string, envKey: Option<string>, embed: Provider, b: Backend, text: string, embed': Provider)
    requires Supplied(envKey)
    requires cachePath + "/goodbye_embeddings.npy" !in b.files
    ensures var model := New(cachePath, envKey).value;
            && model.apiKey == envKey.value
            && !model.hasStore
            && model.phrases == GOODBYE_PHRASES
            && (Initialize(model, embed, b).result.Ok? ==>
                  && |Initialize(model, embed, b).result.value.embeddings.value.columns| == |GOODBYE_PHRASES| == 8
                  && IsGoodbye(Initialize(model, embed, b).result.value, text, embed').result != Err(EmptyScores))
  {
    var model := New(cachePath, envKey).value;
    assert CacheFile(model) == cachePath + "/goodbye_embeddings.npy";
    if Initialize(model, embed, b).result.Ok? {
      FreshInitializeHasPhraseColumns(model, embed, b, text, embed');
    }
  }

  /** `"bye" in text.lower()`: the fast path. */
  predicate SaysBye(text: string) {
    Contains(Lower(text), "bye")
  }

  /** The text the slow path sends to the embedding service. */
  function Query(text: string): string {
    Lower(Strip(text))
  }

  /** Some reference column scores strictly above the threshold. */
  predicate SomeColumnAbove(v: seq<real>, m: Matrix)
    requires |v| == m.rows
  {
    exists j :: 0 <= j < |m.columns| && Dot(v, m.columns[j]) > SIMILARITY_THRESHOLD
  }

  /** The slow path once the reply is in: `np.max(embedding @ matrix) > 0.9`,
      with numpy's errors for a reply of the wrong length and for a matrix
      with no columns. */
  function Similar(reply: Reply, m: Matrix): (r: Result<bool>)
    ensures reply.Failed? ==> r == Err(ProviderError)
    ensures reply.Embedded? && |reply.vector| != m.rows ==> r == Err(ShapeError)
    ensures reply.Embedded? && |reply.vector| == m.rows && |m.columns| == 0 ==> r == Err(EmptyScores)
    ensures r.Ok? <==> reply.Embedded? && |reply.vector| == m.rows && |m.columns| > 0
    ensures r.Ok? ==> (r.value <==> SomeColumnAbove(reply.vector, m))
  {
    match reply
    case Failed => Err(ProviderError)
    case Embedded(v) =>
      if |v| != m.rows then Err(ShapeError)
      else if |m.columns| == 0 then Err(EmptyScores)
      else
        var scores := Scores(v, m);
        MaxAbove(scores, SIMILARITY_THRESHOLD);
        Ok(Max(scores) > SIMILARITY_THRESHOLD)
  }

  /** `is_goodbye`: refused before initialisation; true at once, with no
      embedding call, when the lowered text contains "bye"; otherwise one
      embedding call on the stripped, lowered text, and true exactly when
      some reference column's score is strictly above 0.9. */
  function IsGoodbye(model: GoodbyeModel, text: string, embed: Provider): (r: Traced<bool>)
    ensures model.embeddings.None? ==> r.result == Err(NotInitialised) && r.calls == []
    ensures model.embeddings.Some? && SaysBye(text) ==> r.result == Ok(true) && r.calls == []
    ensures model.embeddings.Some? && !SaysBye(text) ==>
              && r.calls == [Embed(Lower(Strip(text)))]
              && r.result == Similar(embed(Lower(Strip(text))), model.embeddings.value)
    ensures r.result == Ok(false) ==>
              && embed(Query(text)).Embedded?
              && !SomeColumnAbove(embed(Query(text)).vector, model.embeddings.value)
  {
    if model.embeddings.None? then Traced(Err(NotInitialised), [])
    else if SaysBye(text) then Traced(Ok(true), [])
    else
      var q := Query(text);
      Traced(Similar(embed(q), model.embeddings.value), [Embed(q)])
  }

  /** The threshold is strict: a best score of exactly 0.9 is not a goodbye,
      and any score above it is. */
  lemma ThresholdIsStrict(model: GoodbyeModel, text: string, embed: Provider, m: Matrix)
    requires model.embeddings == Some(m)
    requires !SaysBye(text)
    requires embed(Query(text)).Embedded? && |embed(Query(text)).vector| == m.rows && |m.columns| > 0
    ensures Max(Scores(embed(Query(text)).vector, m)) == SIMILARITY_THRESHOLD ==>
              IsGoodbye(model, text, embed).result == Ok(false)
    ensures Max(Scores(embed(Query(text)).vector, m)) > SIMILARITY_THRESHOLD ==>
              IsGoodbye(model, text, embed).result == Ok(true)
  {
  }

  /** A text whose embedding is one of the reference columns, with unit
      length, is a goodbye (the embeddings are assumed unit-normalised). */
  lemma MatchingPhraseIsGoodbye(model: GoodbyeModel, text: string, embed: Provider, j: nat)
    requires model.embeddings.Some? && j < |model.embeddings.value.columns|
    requires embed(Query(text)) == Embedded(model.embeddings.value.columns[j])
    requires Dot(model.embeddings.value.columns[j], model.embeddings.value.columns[j]) == 1.0
    ensures IsGoodbye(model, text, embed).result == Ok(true)
  {
  }

  /** After a successful `initialize_embeddings` the not-initialised
      assertion can no longer fire. */
  lemma InitializedIsReady(model: GoodbyeModel, embed: Provider, b: Backend, text: string, embed': Provider)
    requires Initialize(model, embed, b).result.Ok?
    ensures IsGoodbye(Initialize(model, embed, b).result.value, text, embed').result != Err(NotInitialised)
  {
  }

  /** A freshly built matrix of a non-empty phrase list classifies every
      text without error, provided the service answers with full-length
      vectors. */
  lemma FreshMatrixClassifies(model: GoodbyeModel, embed: Provider, b: Backend, text: string)
    requires |model.phrases| > 0
    requires forall s :: embed(s).Embedded? && |embed(s).vector| == EMBEDDING_SIZE
    requires model.hasStore ==> DEFAULT_KEY !in b.store
    requires !model.hasStore ==> CacheFile(model) !in b.files
    ensures Initialize(model, embed, b).result.Ok?
    ensures IsGoodbye(Initialize(model, embed, b).result.value, text, embed).result.Ok?
  {
    CreateEmbeddingsWithFullVectors(model.phrases, embed);
    var m := CreateEmbeddings(model.phrases, embed).result.value;
    assert Initialize(model, embed, b).result.value.embeddings == Some(m);
  }

  /** With an empty phrase list the build succeeds but leaves no column, so
      every text that does not say "bye" raises in `np.max`. */
  lemma EmptyPhrasesFailOnSlowPath(model: GoodbyeModel, embed: Provider, b: Backend, text: string)
    requires model.phrases == []
    requires model.hasStore ==> DEFAULT_KEY !in b.store
    requires !model.hasStore ==> CacheFile(model) !in b.files
    ensures Initialize(model, embed, b).result.Ok?
    ensures !SaysBye(text) && embed(Query(text)).Embedded? && |embed(Query(text)).vector| == EMBEDDING_SIZE ==>
              IsGoodbye(Initialize(model, embed, b).result.value, text, embed).result == Err(EmptyScores)
  {
    var built := CreateEmbeddings(model.phrases, embed);
    assert built.result.Ok?;
    assert Initialize(model, embed, b).result.value.embeddings == Some(built.result.value);
  }

  /** `initialize_embeddings` is not memoised: a second call resolves again,
      reading the backend once more, but from the backend the first call
      left behind it finds the cached matrix, so it gives the same matrix
      without any embedding call or write. */
  lemma InitializeTwice(model: GoodbyeModel, embed: Provider, b: Backend)
    requires Initialize(model, embed, b).result.Ok?
    ensures var first := Initialize(model, embed, b);
            var second := Initialize(first.result.value, embed, first.backend);
            && second.result == first.result
            && second.backend == first.backend
            && |second.calls| > 0
            && ReadOnly(second.calls)
  {
  }

  /** The reference matrix of the two-phrase scenario: phrases "bye" and
      "see you" embedded as the unit basis of a two-dimensional space. */
  function ScenarioModel(): GoodbyeModel {
    GoodbyeModel("cache", "key", false, ["bye", "see you"], Some(Grid(2, [[1.0, 0.0], [0.0, 1.0]])))
  }

  /** The scenario's embedding service: "talk to you later" lands close to
      "see you", everything else scores 0.2 against both phrases. */
  function ScenarioEmbed(s: string): Reply {
    if s == "talk to you later" then Embedded([0.05, 0.95]) else Embedded([0.2, 0.2])
  }

  /** The scenario's verdicts once the service has answered: 0.95 against
      "see you" passes the threshold, 0.2 against both phrases does not. */
  lemma ScenarioVerdicts()
    ensures Similar(Embedded([0.05, 0.95]), ScenarioModel().embeddings.value) == Ok(true)
    ensures Similar(Embedded([0.2, 0.2]), ScenarioModel().embeddings.value) == Ok(false)
  {
  }

  /** In the scenario "talk to you later" is a goodbye although it does not
      say "bye": it scores 0.95 against "see you". */
  lemma ScenarioTalkToYouLater(text: string)
    requires text == "talk to you later"
    ensures IsGoodbye(ScenarioModel(), text, ScenarioEmbed).result == Ok(true)
  {
    PlainTextQuery(text);
    AbsentFirstCharacter(text, "bye");
    ScenarioVerdicts();
    SlowPathAnswer(ScenarioModel(), text, ScenarioEmbed, [0.05, 0.95]);
  }

  /** In the scenario "what time is it" scores 0.2 at best and is not a
      goodbye. */
  lemma ScenarioWhatTimeIsIt(text: string)
    requires text == "what time is it"
    ensures IsGoodbye(ScenarioModel(), text, ScenarioEmbed).result == Ok(false)
  {
    PlainTextQuery(text);
    AbsentFirstCharacter(text, "bye");
    ScenarioVerdicts();
    SlowPathAnswer(ScenarioModel(), text, ScenarioEmbed, [0.2, 0.2]);
  }

  /** A text that does not say "bye" gets the verdict of its query's reply. */
  lemma SlowPathAnswer(model: GoodbyeModel, text: string, embed: Provider, v: seq<real>)
    requires model.embeddings.Some?
    requires !Contains(text, "bye") && Query(text) == text && Lower(text) == text
    requires embed(text) == Embedded(v)
    ensures IsGoodbye(model, text, embed).result == Similar(Embedded(v), model.embeddings.value)
  {
  }

  /** A text with no upper-case letter and no surrounding whitespace is sent
      to the service as it is. */
  lemma PlainTextQuery(text: string)
    requires forall i :: 0 <= i < |text| ==> !IsUpper(text[i])
    requires text == [] || (!IsSpace(text[0]) && !IsSpace(text[|text| - 1]))
    ensures Lower(text) == text
    ensures Query(text) == text
  {
    StripUntrimmed(text);
  }
}

=== FILE: text.dfy ===
/** The three Python string operations the classifier relies on:
    `str.lower()`, `str.strip()` and the substring test `sub in s`. */
module Text {

  /** Python's `str.isspace()` for one character: the ASCII controls
      TAB..CR and FS..US, the space, the Unicode space separators, and
      U+0085, U+2028 and U+2029. */
  predicate IsSpace(c: char) {
    || ('\t' <= c <= '\r')
    || ('\U{1C}' <= c <= ' ')
    || c == '\U{85}' || c == '\U{A0}' || c == '\U{1680}'
    || ('\U{2000}' <= c <= '\U{200A}')
    || c == '\U{2028}' || c == '\U{2029}' || c == '\U{202F}'
    || c == '\U{205F}' || c == '\U{3000}'
  }

  predicate IsUpper(c: char) {
    'A' <= c <= 'Z'
  }

  function LowerChar(c: char): (d: char)
    ensures !IsUpper(d)
    ensures IsUpper(c) ==> d as int == c as int + 32
    ensures !IsUpper(c) ==> d == c
  {
    if IsUpper(c) then (c as int + 32) as char else c
  }

  /** `s.lower()`, restricted to the ASCII letters. */
  function Lower(s: string): (r: string)
    ensures |r| == |s|
    ensures forall i :: 0 <= i < |r| ==> !IsUpper(r[i])
    ensures forall i :: 0 <= i < |s| && !IsUpper(s[i]) ==> r[i] == s[i]
    ensures forall i :: 0 <= i < |s| && IsUpper(s[i]) ==> r[i] as int == s[i] as int + 32
  {
    seq(|s|, i requires 0 <= i < |s| => LowerChar(s[i]))
  }

  /** Lowering twice is lowering once. */
  lemma LowerIdempotent(s: string)
    ensures Lower(Lower(s)) == Lower(s)
  {
  }

  /** Number of whitespace characters at the start of `s`. */
  function LeadingSpaces(s: string): (k: nat)
    ensures k <= |s|
    ensures forall i :: 0 <= i < k ==> IsSpace(s[i])
    ensures k < |s| ==> !IsSpace(s[k])
    decreases |s|
  {
    if |s| > 0 && IsSpace(s[0]) then 1 + LeadingSpaces(s[1..]) else 0
  }

  /** Number of whitespace characters at the end of `s`. */
  function TrailingSpaces(s: string): (k: nat)
    ensures k <= |s|
    ensures forall i :: |s| - k <= i < |s| ==> IsSpace(s[i])
    ensures k < |s| ==> !IsSpace(s[|s| - k - 1])
    decreases |s|
  {
    if |s| > 0 && IsSpace(s[|s| - 1]) then 1 + TrailingSpaces(s[..|s| - 1]) else 0
  }

  /** `r` is the slice `s[i..i+|r|]` and everything around it is whitespace. */
  predicate SpacedAround(s: string, r: string, i: nat) {
    && i + |r| <= |s|
    && s[i..i + |r|] == r
    && (forall k :: 0 <= k < i ==> IsSpace(s[k]))
    && (forall k :: i + |r| <= k < |s| ==> IsSpace(s[k]))
  }

  /** `s.strip()`: the slice of `s` left once the leading and trailing
      whitespace is removed. */
  function Strip(s: string): (r: string)
    ensures exists i: nat :: SpacedAround(s, r, i)
    ensures r == [] || (!IsSpace(r[0]) && !IsSpace(r[|r| - 1]))
  {
    var lead := LeadingSpaces(s);
    if lead == |s| then
      assert SpacedAround(s, [], 0);
      []
    else
      var trail := TrailingSpaces(s);
      assert !IsSpace(s[lead]);
      assert lead < |s| - trail;
      var r := s[lead..|s| - trail];
      assert SpacedAround(s, r, lead);
      r
  }

  /** Stripping an already stripped string changes nothing. */
  lemma StripIdempotent(s: string)
    ensures Strip(Strip(s)) == Strip(s)
  {
    var r := Strip(s);
    if r != [] {
      assert LeadingSpaces(r) == 0;
      assert TrailingSpaces(r) == 0;
      assert r[0..|r| - 0] == r;
    }
  }

  /** `sub` occurs in `s` starting at index `i`. */
  predicate OccursAt(s: string, sub: string, i: nat) {
    i + |sub| <= |s| && s[i..i + |sub|] == sub
  }

  /** Python's `sub in s`. */
  predicate Contains(s: string, sub: string)
    decreases |s|
  {
    |sub| <= |s| && (s[..|sub|] == sub || (0 < |s| && Contains(s[1..], sub)))
  }

  /** An occurrence at index `i` makes `Contains` true. */
  lemma {:induction false} OccursThenContains(s: string, sub: string, i: nat)
    requires OccursAt(s, sub, i)
    ensures Contains(s, sub)
    decreases i
  {
    if i > 0 && s[..|sub|] != sub {
      assert s[1..][i - 1..i - 1 + |sub|] == s[i..i + |sub|];
      OccursThenContains(s[1..], sub, i - 1);
    }
  }

  /** When `Contains` is true, an index where `sub` occurs. */
  lemma {:induction false} ContainsWitness(s: string, sub: string) returns (i: nat)
    requires Contains(s, sub)
    ensures OccursAt(s, sub, i)
    decreases |s|
  {
    if s[..|sub|] == sub {
      i := 0;
    } else {
      var j := ContainsWitness(s[1..], sub);
      assert s[1..][j..j + |sub|] == s[j + 1..j + 1 + |sub|];
      i := j + 1;
    }
  }

  /** `Contains` holds exactly when `sub` occurs at some index of `s`. */
  lemma ContainsIffOccurs(s: string, sub: string)
    ensures Contains(s, sub) <==> exists i: nat :: OccursAt(s, sub, i)
  {
    if Contains(s, sub) {
      var i := ContainsWitness(s, sub);
    } else {
      forall i: nat | OccursAt(s, sub, i)
        ensures false
      {
        OccursThenContains(s, sub, i);
      }
    }
  }

  predicate EndsWith(s: string, suffix: string) {
    |suffix| <= |s| && s[|s| - |suffix|..] == suffix
  }

  lemma EndsWithAppended(s: string, suffix: string)
    ensures EndsWith(s + suffix, suffix)
  {
    assert (s + suffix)[|s|..] == suffix;
  }

  /** A string with nothing to strip is its own stripped form. */
  lemma StripUntrimmed(s: string)
    requires s == [] || (!IsSpace(s[0]) && !IsSpace(s[|s| - 1]))
    ensures Strip(s) == s
  {
    if s != [] {
      assert LeadingSpaces(s) == 0;
      assert TrailingSpaces(s) == 0;
      assert s[0..|s| - 0] == s;
    }
  }

  /** A substring whose first character never appears in `s` is not in `s`. */
  lemma AbsentFirstCharacter(s: string, sub: string)
    requires |sub| > 0 && sub[0] !in s
    ensures !Contains(s, sub)
  {
    ContainsIffOccurs(s, sub);
  }
}

=== FILE: unawaited.dfy ===
/** `load_or_create_embeddings` as written: both branches return the backend
    coroutine without awaiting it, so `initialize_embeddings` stores the
    coroutine object itself in `goodbye_embeddings`. Nothing is read,
    built or written, the not-initialised assertion passes, and the first
    text that reaches the slow path fails at `embedding @ goodbye_embeddings`.
    The rest of the model (`Goodbye.Initialize`) awaits the backend call. */
module Unawaited {
  import opened Effects
  import opened Embeddings
  import opened Cache
  import opened Goodbye

  /** What `goodbye_embeddings` can hold once assigned: a real matrix, or a
      coroutine of `_from_redis` / `_from_path` that nobody awaits. */
  datatype Held = Array(matrix: Matrix) | Coroutine(onStore: bool)

  /** `load_or_create_embeddings` as written: the backend is chosen as the
      awaited `LoadOrCreate` would choose it, but its coroutine is returned,
      not run, so none of the calls the awaited version makes happens. */
  function LoadOrCreateAsWritten(
    hasStore: bool, phrases: seq<string>, path: string, key: string, embed: Provider, b: Backend)
    : (r: Step<Held>)
    ensures r.result.Ok? && r.result.value.Coroutine?
    ensures var awaited := LoadOrCreate(hasStore, phrases, path, key, embed, b);
            && (r.result.value.onStore <==> awaited.calls[0].StoreGet?)
            && (r.result.value.onStore ==> awaited.calls[0] == StoreGet(key))
            && (!r.result.value.onStore ==> awaited.calls[0] == FileCheck(path))
            && |awaited.calls| > |r.calls| == 0
    ensures r.backend == b
  {
    Step(Ok(Coroutine(UsesStore(hasStore, key))), [], b)
  }

  /** `initialize_embeddings` on top of it. */
  function InitializeAsWritten(model: GoodbyeModel, embed: Provider, b: Backend): (r: Step<Option<Held>>)
    ensures r.result.Ok? && r.result.value.Some? && r.result.value.value.Coroutine?
    ensures r.calls == [] && r.backend == b
    ensures |Initialize(model, embed, b).calls| > 0
  {
    var resolved := LoadOrCreateAsWritten(model.hasStore, model.phrases, CacheFile(model), DEFAULT_KEY, embed, b);
    match resolved.result
    case Err(e) => Step(Err(e), resolved.calls, resolved.backend)
    case Ok(h) => Step(Ok(Some(h)), resolved.calls, resolved.backend)
  }

  /** `is_goodbye` over whatever `goodbye_embeddings` holds. Matrix
      multiplication with a coroutine operand raises. */
  function IsGoodbyeAsWritten(held: Option<Held>, text: string, embed: Provider): (r: Traced<bool>)
    ensures held.None? ==> r.result == Err(NotInitialised) && r.calls == []
    ensures held.Some? && SaysBye(text) ==> r.result == Ok(true) && r.calls == []
    ensures held.Some? && !SaysBye(text) ==> r.calls == [Embed(Query(text))]
    ensures held.Some? && held.value.Array? && !SaysBye(text) ==>
              r.result == Similar(embed(Query(text)), held.value.matrix)
    ensures held.Some? && held.value.Coroutine? ==> r.result != Ok(false)
  {
    if held.None? then Traced(Err(NotInitialised), [])
    else if SaysBye(text) then Traced(Ok(true), [])
    else
      var q := Query(text);
      var reply := embed(q);
      match held.value
      case Array(m) => Traced(Similar(reply, m), [Embed(q)])
      case Coroutine(_) =>
        if reply.Failed? then Traced(Err(ProviderError), [Embed(q)])
        else Traced(Err(OperandError), [Embed(q)])
  }

  /** The discrepancy. As written, initialising touches no backend and
      builds nothing, and afterwards every text that does not say "bye"
      fails once the service has answered; the awaited resolution instead
      yields a matrix that classifies (here: a first resolve that builds
      the matrix for a non-empty phrase list). */
  lemma UnawaitedInitializeBreaksClassification(
    model: GoodbyeModel, embed: Provider, b: Backend, text: string)
    requires !SaysBye(text)
    requires |model.phrases| > 0
    requires forall s :: embed(s).Embedded? && |embed(s).vector| == EMBEDDING_SIZE
    requires model.hasStore ==> DEFAULT_KEY !in b.store
    requires !model.hasStore ==> CacheFile(model) !in b.files
    ensures InitializeAsWritten(model, embed, b).calls == []
    ensures IsGoodbyeAsWritten(InitializeAsWritten(model, embed, b).result.value, text, embed).result == Err(OperandError)
    ensures IsGoodbye(Initialize(model, embed, b).result.value, text, embed).result.Ok?
  {
    FreshMatrixClassifies(model, embed, b, text);
  }
}
